=== FILE: README.md ===
# GTFS shapes to Barefoot map: a Dafny model of `MapCreator`

The map creator is a command-line tool that turns the shape points of a GTFS
transit feed into a Barefoot road map. It comes as two near-identical entry
points, `org.thetransitclock.barefoot.mapcreator.MapCreator` and
`org.onebusaway.barefoot.mapcreator.MapCreator`. Their `main` does five things:

1. **Guard.** `processCommandLineOptions` lets the conversion run only when
   option `h` is absent and both `gtfs` and `barefootmap` are present.
   Otherwise it prints usage. The thetransitclock tool then calls
   `System.exit(0)`. The onebusaway tool returns `null`, and `main` does
   nothing more.
2. **Group.** The feed's shape points go into a `HashMap` keyed by
   `ShapePoint.getId()`. Each point is appended to its key's list in
   encounter order.
3. **Sort.** Each group is sorted with `Collections.sort`. The
   thetransitclock tool sorts by the points' natural order. The onebusaway
   tool sorts by `ShapePointComparator`, which compares ids only.
4. **Build.** Each sorted group becomes a polyline. The first point gives a
   zero-length segment. Every later point gives a segment from the previous
   end point to itself.
5. **Emit.** Each key gets one `BaseRoad`. Its id and refid are the key.
   Source and target are both the current counter value, and the counter
   then goes up by one. The roads are written to the map file in build order.

The modules follow this structure:

- `Shapes`: shape points, points and segments.
- `Ordering`: stable sorting by a total preorder. The sort is defined once,
  as an insertion sort, and characterised independently. Its result is
  sorted, is a permutation of the input, and keeps each class of equivalent
  elements in input order. The characterisation is proved to determine the
  result, so Java's merge sort gives the same sequence.
- `ShapePointComparator`: the comparator.
- `Grouping`: the `HashMap` grouping.
- `Polylines`: the segment loop.
- `Roads`: the road loop and its counter.
- `Effects`: the observable I/O of a run as a trace.
- `CommandLine`: the guard of both tools.
- `MapCreator`: `main` put together.

Behaviour of the code worth noting:

- A group of n points gives n segments, the first one zero-length (its
  start and end are the first point). `Polylines.PolylineAfterFirstSegment`
  shows that the segments after it are the n-1 segments joining consecutive
  points.
- The grouping key is the generated entity id `getId()`. The shape id plays
  no part.
- The onebusaway tool sorts by that id. All points of a group share it, so
  the sort changes nothing, and the points stay in the order the feed store
  returned them. The sequence number plays no part.
- Every rejection of the command line (a parse failure, `h`, or a missing
  `gtfs` or `barefootmap`) ends with exit status 0. The thetransitclock tool
  calls `System.exit(0)`. The onebusaway tool returns from `main` normally.
- A one-point group is not skipped. It becomes a road whose polyline is one
  zero-length segment.

## Model

| member | source | states |
|---|---|---|
| `ShapePointComparator.Compare` | src/main/java/org/thetransitclock/barefoot/mapcreator/ShapePointComparator.java:9-11 | the result is negative, zero or positive exactly when the first id is less than, equal to or greater than the second |
| `ShapePointComparator.CompareAntisymmetric` | src/main/java/org/thetransitclock/barefoot/mapcreator/ShapePointComparator.java:10 | the sign of compare(a, b) is the negation of the sign of compare(b, a) |
| `ShapePointComparator.CompareTransitive` | src/main/java/org/thetransitclock/barefoot/mapcreator/ShapePointComparator.java:10 | two non-positive (or two negative) answers chain to a non-positive (negative) one |
| `ShapePointComparator.CompareIgnoresAllButId` | src/main/java/org/thetransitclock/barefoot/mapcreator/ShapePointComparator.java:10 | points with equal ids compare alike; shape id, sequence, latitude and longitude play no part |
| `ShapePointComparator.ByIdIsTotalPreorder` | src/main/java/org/thetransitclock/barefoot/mapcreator/ShapePointComparator.java:9-11 | "compare(a, b) <= 0" is total and transitive, so it is a valid sort order |
| `ShapePointComparator.SortByIdKeepsSameIdGroup` | src/main/java/org/onebusaway/barefoot/mapcreator/MapCreator.java:94 | a stable sort by the comparator of a group whose points share one id returns the group unchanged |
| `Ordering.Sort` | src/main/java/org/thetransitclock/barefoot/mapcreator/MapCreator.java:90 | the sorted group is ordered, is a permutation of the group, and keeps every class of equivalent points in its original order (stability) |
| `Ordering.SortedWithSameClassesUnique` | src/main/java/org/thetransitclock/barefoot/mapcreator/MapCreator.java:90 | two sorted sequences with the same equivalence classes in the same order are equal |
| `Ordering.SortIsTheStableSort` | src/main/java/org/thetransitclock/barefoot/mapcreator/MapCreator.java:90 | every stable sort of a group returns the model's sorted group |
| `Ordering.SortIdempotent` | src/main/java/org/thetransitclock/barefoot/mapcreator/MapCreator.java:90 | sorting an already sorted group changes nothing |
| `Grouping.GroupById` | src/main/java/org/thetransitclock/barefoot/mapcreator/MapCreator.java:76-83 | the map's keys are exactly the ids in the feed, and each key holds the points with that id in encounter order |
| `Grouping.AddPointKeepsGroups` | src/main/java/org/thetransitclock/barefoot/mapcreator/MapCreator.java:77-82 | appending a point to its key's list (created empty if absent) keeps the map an exact grouping of the points seen so far |
| `Grouping.GroupingPartitions` | src/main/java/org/onebusaway/barefoot/mapcreator/MapCreator.java:79-86 | every point lies in the group of its own id, every group member is an input point with the group's id, and no group is empty |
| `Grouping.GroupsPermuteInput` | src/main/java/org/thetransitclock/barefoot/mapcreator/MapCreator.java:76-90 | the groups of all keys together are a permutation of the input points: nothing lost, nothing duplicated |
| `Grouping.EnumerationSize` | src/main/java/org/thetransitclock/barefoot/mapcreator/MapCreator.java:87-89 | iterating the key set visits exactly as many keys as there are distinct ids |
| `Polylines.Trace` | src/main/java/org/thetransitclock/barefoot/mapcreator/MapCreator.java:93-112 | the start/end loop emits one segment per point; each ends at its point; the first starts at the previous end or, without one, at its own point; each later one starts where the previous ended |
| `Polylines.BuildPolyline` | src/main/java/org/onebusaway/barefoot/mapcreator/MapCreator.java:97-116 | n points give n segments: segment 0 is zero-length at point 0, and segment i runs from point i-1 to point i |
| `Polylines.PolylineConnected` | src/main/java/org/thetransitclock/barefoot/mapcreator/MapCreator.java:98-108 | each segment starts at the previous segment's end, and the last ends at the last point |
| `Polylines.PolylineAfterFirstSegment` | src/main/java/org/thetransitclock/barefoot/mapcreator/MapCreator.java:93-111 | after the leading zero-length segment there are n-1 segments, each joining consecutive points |
| `Roads.MakeRoad` | src/main/java/org/thetransitclock/barefoot/mapcreator/MapCreator.java:113-114 | the road carries the key as id and refid, the counter's value before the increment as both source and target, the fixed type, priority, speeds and length, and a connected polyline with one segment per point, segment i ending at point i and the first starting at the first point |
| `Roads.BuildRoads` | src/main/java/org/thetransitclock/barefoot/mapcreator/MapCreator.java:87-116 | the i-th road has the i-th key as id and refid, counter+i as source and target, the fixed attributes, and the polyline of the key's sorted group |
| `MapCreator.GroupOrder` | src/main/java/org/onebusaway/barefoot/mapcreator/MapCreator.java:94 | the order each group is sorted by: for the onebusaway tool "a before b" exactly when a's id is at most b's; for the thetransitclock tool the points' natural order (its line 90); a total preorder whenever the natural order is one |
| `MapCreator.Assemble` | src/main/java/org/thetransitclock/barefoot/mapcreator/MapCreator.java:65-116 | one road per key of the grouping map, as many as there are distinct ids; road i carries key i as id and refid, i as both node ids, the fixed attributes, and one segment per point with that id |
| `MapCreator.AssembleOneRoadPerKey` | src/main/java/org/thetransitclock/barefoot/mapcreator/MapCreator.java:85-116 | one road per distinct id; road k carries key k and node ids k; ids are unique and node ids strictly increasing; every id in the feed has its road |
| `MapCreator.AssembleGeometry` | src/main/java/org/thetransitclock/barefoot/mapcreator/MapCreator.java:89-114 | a road's geometry is the polyline of its key's points under any stable sort by the tool's order, with one segment per point |
| `MapCreator.OneBusAwayKeepsEncounterOrder` | src/main/java/org/onebusaway/barefoot/mapcreator/MapCreator.java:92-119 | in the onebusaway tool each road's polyline follows its points in encounter order |
| `MapCreator.ThreePointShape` | src/main/java/org/onebusaway/barefoot/mapcreator/MapCreator.java:88-120 | three points (0,0), (1,0), (1,1) under one id give one road with segments (0,0)-(0,0), (0,0)-(1,0), (1,0)-(1,1) |
| `MapCreator.CounterFitsInLong` | src/main/java/org/thetransitclock/barefoot/mapcreator/MapCreator.java:88-113 | there are at most 2^32 roads, every node id is below the number of roads, and the counter's final value is at most `Long.MAX_VALUE`, so the Java `long` counter never wraps |
| `Effects.WrittenWrites` | src/main/java/org/onebusaway/barefoot/mapcreator/MapCreator.java:124-126 | writing a road list and collecting what was written gives the list back, once each, in list order |
| `MapCreator.WriteMap` | src/main/java/org/thetransitclock/barefoot/mapcreator/MapCreator.java:117-129 | the roads written are a prefix of the list; all of it unless the writer throws in open or in one of the writes; an error is reported exactly when a fault is hit, as the last effect; a fault in open leaves nothing written, one at write k leaves k roads written, one in close leaves every road written |
| `CommandLine.ProcessCommandLineOptions` | src/main/java/org/thetransitclock/barefoot/mapcreator/MapCreator.java:132-165 | proceeds, returning the parsed line, exactly when parsing succeeded, `h` is absent and `gtfs` and `barefootmap` are present; otherwise shows usage, then exits with 0 (thetransitclock) or returns null (onebusaway); never reads or writes; an error is reported exactly when parsing failed, while a parsed line that lacks an option or asks for help only shows usage |
| `CommandLine.Reject` | src/main/java/org/thetransitclock/barefoot/mapcreator/MapCreator.java:153-160 | a rejection shows usage first and does nothing else except exit with 0; it ends the process exactly in the thetransitclock tool (onebusaway lines 152-158 return null instead) |
| `CommandLine.TheTransitClockGuard` | src/main/java/org/thetransitclock/barefoot/mapcreator/MapCreator.java:145-164 | thetransitclock: a requested conversion gets the parsed line back; any other outcome ends with usage followed by exit status 0 |
| `CommandLine.OneBusAwayGuard` | src/main/java/org/onebusaway/barefoot/mapcreator/MapCreator.java:148-160 | onebusaway: a requested conversion gets the parsed line back; any other outcome shows usage last and returns null without exiting |
| `MapCreator.ReadAndWrite` | src/main/java/org/thetransitclock/barefoot/mapcreator/MapCreator.java:59-129 | after the guard: the feed is read first; the roads written are a prefix of the assembled roads, all of them when the writer does not fail; an error is reported exactly when the writer fails; no usage text and no exit |
| `MapCreator.ConvertFeed` | src/main/java/org/thetransitclock/barefoot/mapcreator/MapCreator.java:67-129 | the `try` block and its `catch`: a feed that cannot be read gives exactly a read attempt and an error report, with no map file opened; otherwise the roads written are a prefix of the assembled roads, all of them unless the writer fails, and an error is reported exactly when it fails; never usage, never an exit |
| `MapCreator.RunMapCreator` | src/main/java/org/onebusaway/barefoot/mapcreator/MapCreator.java:59-134 | the feed is read exactly when the guard passes; a rejected run does exactly what the guard does (usage, then `Exit(0)` as the last effect in the thetransitclock tool) and writes nothing; a feed that cannot be read gives exactly a read attempt and an error report; in neither case is the map file opened; every exit status is 0; the roads written are a prefix of the assembled roads and, with no I/O fault, all of them in order; when the conversion runs, an error is reported exactly when the feed cannot be read or the writer fails |

## Left out

- GTFS reading (`GtfsReader`, `GtfsRelationalDaoImpl`, `getAllShapePoints`) is file I/O in an external library. The points it returns are a parameter. Any `IOException` it throws is one outcome, "no feed".
- The Barefoot writer's binary format is left out, because the writer is an external library. Output is the ordered list of roads the writer is given. Where it throws (open, the k-th write, close) is a parameter.
- Esri `Point`, `Line` and `Polyline` are plain values here, because they are an external geometry library. Coordinates are reals that are only copied. `addSegment(segment, false)` appends to one path, modelled as a sequence of segments. `GeometryEngine.geometryToGeoJson` appears only in a debug log line and is left out.
- The float road attributes 1, 60, 60, 100 are real constants, because floating point is out of scope. They are exactly representable, and nothing computes with them.
- `HashMap.keySet()` iteration order is unspecified in Java. It is a parameter, a duplicate-free sequence of exactly the map's keys.
- ShapePoint's natural order (`compareTo`, used by the thetransitclock sort) lives in the GTFS library. It is a parameter, required to be a total preorder, as `Collections.sort` needs.
- The onebusaway tool's own `ShapePointComparator` is not part of this model. It is taken to compare by `getId()`, like the thetransitclock one.
- commons-cli parsing and the `HelpFormatter` text are an external library. A parse is either a failure or the set of options present. The option values are only handed to I/O, so they are not modelled.
- Logging (`logger.error`, `logger.debug`) is output only, so it is left out. The error message and stack trace printing are one `ReportError` effect.
- `System.exit` is an `Exit(status)` effect that ends the trace. The model does not cover process teardown.
- MapCreator.WriteMap: every failure of the Barefoot writer (in open, a write or close) is taken to be an `IOException`, caught and printed by the `catch (IOException e)` of `main` (thetransitclock lines 126-129, onebusaway lines 129-132). The writer library is an external library, so its exception types are not modelled. An unchecked exception escaping `main` is not modelled either; if the writer raised one, the claims "an error is reported exactly when the writer fails" and "every exit status is 0" would not cover that run.
- Runtime exceptions other than `IOException` are left out; nothing in the modelled code raises them for valid inputs.
- `ShapePointComparator.Compare`: states only the sign of the result. `Integer.compareTo` returns exactly -1, 0 or 1 (the body models that), but the comparator's contract promises only the sign.

=== FILE: commandline.dfy ===
/** `processCommandLineOptions` of both entry points. commons-cli parsing is
    left to the library: its outcome is either a failure or the set of
    options present on the command line. The option values (the two paths)
    are only handed on to I/O, so they are not modelled. */
module CommandLine {

  import opened Effects

  const HELP: string := "h"
  const GTFS: string := "gtfs"
  const BAREFOOT_MAP: string := "barefootmap"

  /** The two near-identical tools: `org.thetransitclock...MapCreator` and
      `org.onebusaway...MapCreator`. */
  datatype EntryPoint = TheTransitClock | OneBusAway

  datatype ParsedLine = ParsedLine(present: set<string>)

  datatype ParseResult = ParseFailure | Parsed(line: ParsedLine)

  /** How the guard hands control back to `main`: with the parsed line, by
      ending the process, or by returning `null`. */
  datatype GuardResult = Proceed(line: ParsedLine) | Exited(status: int) | ReturnedNull

  datatype Guarded = Guarded(result: GuardResult, effects: seq<Effect>)

  /** Whether the guard lets the conversion run: the line parsed, `h` is
      absent and both `gtfs` and `barefootmap` are present. */
  predicate ConversionRequested(parse: ParseResult)
  {
    && parse.Parsed?
    && HELP !in parse.line.present
    && GTFS in parse.line.present
    && BAREFOOT_MAP in parse.line.present
  }

  /** Usage is shown, then the thetransitclock tool calls `System.exit(0)`
      and the onebusaway tool returns `null`. */
  function Reject(entry: EntryPoint): (g: Guarded)
    ensures !g.result.Proceed?
    ensures |g.effects| > 0 && g.effects[0] == DisplayUsage
    ensures forall e :: e in g.effects ==> e == DisplayUsage || e == Exit(0)
    ensures Exit(0) in g.effects <==> entry == TheTransitClock
    ensures entry == TheTransitClock ==> g.result == Exited(0) && g.effects[|g.effects| - 1] == Exit(0)
    ensures entry == OneBusAway ==> g.result == ReturnedNull
  {
    match entry
    case TheTransitClock => Guarded(Exited(0), [DisplayUsage, Exit(0)])
    case OneBusAway => Guarded(ReturnedNull, [DisplayUsage])
  }

  function ProcessCommandLineOptions(entry: EntryPoint, parse: ParseResult): (g: Guarded)
    ensures g.result.Proceed? <==> ConversionRequested(parse)
    ensures g.result.Proceed? ==> g.result.line == parse.line && g.effects == []
    ensures !g.result.Proceed? ==> DisplayUsage in g.effects
    ensures forall e :: e in g.effects ==> !e.ReadFeed? && !e.OpenWriter? && !e.WriteRoad? && !e.CloseWriter?
    ensures forall e :: e in g.effects && e.Exit? ==> e.status == 0
    ensures !g.result.Proceed? && entry == TheTransitClock ==>
      g.result == Exited(0) && g.effects[|g.effects| - 1] == Exit(0)
    ensures !g.result.Proceed? && entry == OneBusAway ==>
      g.result == ReturnedNull && forall e :: e in g.effects ==> !e.Exit?
    ensures parse.ParseFailure? ==> g.effects[0] == ReportError
    ensures ReportError in g.effects <==> parse.ParseFailure?
  {
    match parse
    case ParseFailure =>
      var r := Reject(entry);
      Guarded(r.result, [ReportError] + r.effects)
    case Parsed(line) =>
      if HELP in line.present || GTFS !in line.present || BAREFOOT_MAP !in line.present then
        Reject(entry)
      else
        Guarded(Proceed(line), [])
  }

  /** The thetransitclock guard either hands back the parsed line or ends
      the process with status 0 after showing usage. */
  lemma TheTransitClockGuard(parse: ParseResult)
    ensures var g := ProcessCommandLineOptions(TheTransitClock, parse);
      if ConversionRequested(parse) then g.result == Proceed(parse.line)
      else g.result == Exited(0) && g.effects[|g.effects| - 2..] == [DisplayUsage, Exit(0)]
  {
  }

  /** The onebusaway guard either hands back the parsed line or returns
      `null` after showing usage, without ending the process. */
  lemma OneBusAwayGuard(parse: ParseResult)
    ensures var g := ProcessCommandLineOptions(OneBusAway, parse);
      if ConversionRequested(parse) then g.result == Proceed(parse.line)
      else g.result == ReturnedNull && g.effects[|g.effects| - 1] == DisplayUsage
  {
  }
}

=== FILE: comparator.dfy ===
/** `ShapePointComparator`: orders shape points by their generated id only,
    through `Integer.compareTo`. The onebusaway entry point sorts each group
    with it. */
module ShapePointComparator {

  import opened Shapes
  import Ordering

  /** `arg0.getId().compareTo(arg1.getId())`; `Integer.compareTo` answers -1, 0 or 1. */
  function Compare(a: ShapePoint, b: ShapePoint): (r: Int32)
    ensures r < 0 <==> a.id < b.id
    ensures r == 0 <==> a.id == b.id
    ensures r > 0 <==> a.id > b.id
  {
    if a.id < b.id then -1 else if a.id == b.id then 0 else 1
  }

  function Sign(n: int): int
  {
    if n < 0 then -1 else if n == 0 then 0 else 1
  }

  /** The sign of `compare(a, b)` is the negation of the sign of `compare(b, a)`. */
  lemma CompareAntisymmetric(a: ShapePoint, b: ShapePoint)
    ensures Sign(Compare(a, b)) == -Sign(Compare(b, a))
  {
  }

  /** Two non-positive answers chain, and so do two negative ones. */
  lemma CompareTransitive(a: ShapePoint, b: ShapePoint, c: ShapePoint)
    ensures Compare(a, b) <= 0 && Compare(b, c) <= 0 ==> Compare(a, c) <= 0
    ensures Compare(a, b) < 0 && Compare(b, c) < 0 ==> Compare(a, c) < 0
  {
  }

  /** The answer depends on the ids alone: shape id, sequence, latitude and
      longitude are ignored. */
  lemma CompareIgnoresAllButId(a: ShapePoint, b: ShapePoint, a': ShapePoint, b': ShapePoint)
    requires a.id == a'.id && b.id == b'.id
    ensures Compare(a, b) == Compare(a', b')
  {
  }

  /** The relation `Collections.sort(list, new ShapePointComparator())` sorts by. */
  predicate ById(a: ShapePoint, b: ShapePoint)
  {
    Compare(a, b) <= 0
  }

  /** The comparator is a valid sort order: total and transitive. */
  lemma ByIdIsTotalPreorder()
    ensures Ordering.TotalPreorder(ById)
  {
  }

  /** Sorting by the comparator a group whose points all share one id
      leaves the group exactly as it was. */
  lemma SortByIdKeepsSameIdGroup(g: seq<ShapePoint>, k: Int32)
    requires forall i :: 0 <= i < |g| ==> g[i].id == k
    ensures Ordering.TotalPreorder(ById)
    ensures Ordering.Sort(ById, g) == g
  {
    ByIdIsTotalPreorder();
    Ordering.SortOfEquivalentsIsIdentity(ById, g);
  }
}

=== FILE: effects.dfy ===
/** What a run of the map creator does to the outside world, in order.
    Reading the feed, opening, writing and closing the map file, printing
    and exiting are opaque calls; the model records them as a trace. */
module Effects {

  import Roads

  datatype Effect =
    | ReportError               // a caught exception's message or stack trace is printed
    | DisplayUsage              // the HelpFormatter usage text is printed
    | Exit(status: int)         // System.exit(status)
    | ReadFeed                  // an attempt to read the feed: setInputLocation, then GtfsReader.run()
    | OpenWriter                // new BfmapWriter(path).open()
    | WriteRoad(road: Roads.BaseRoad)
    | CloseWriter

  /** The write calls for `roads`, one per road, in list order. */
  function Writes(roads: seq<Roads.BaseRoad>): (effects: seq<Effect>)
    ensures |effects| == |roads|
    ensures forall i :: 0 <= i < |roads| ==> effects[i] == WriteRoad(roads[i])
  {
    if |roads| == 0 then [] else [WriteRoad(roads[0])] + Writes(roads[1..])
  }

  /** The roads that reached the map file, in the order written. */
  function Written(effects: seq<Effect>): seq<Roads.BaseRoad>
  {
    if |effects| == 0 then []
    else (if effects[0].WriteRoad? then [effects[0].road] else []) + Written(effects[1..])
  }

  lemma {:induction false} WrittenAppend(a: seq<Effect>, b: seq<Effect>)
    ensures Written(a + b) == Written(a) + Written(b)
  {
    if |a| > 0 {
      WrittenAppend(a[1..], b);
      assert (a + b)[1..] == a[1..] + b;
    } else {
      assert a + b == b;
    }
  }

  /** Writing a list and reading back what was written gives the list. */
  lemma {:induction false} WrittenWrites(roads: seq<Roads.BaseRoad>)
    ensures Written(Writes(roads)) == roads
  {
    if |roads| > 0 {
      WrittenWrites(roads[1..]);
      WrittenAppend([WriteRoad(roads[0])], Writes(roads[1..]));
    }
  }
}

=== FILE: grouping.dfy ===
/** The first step of `main`: shape points are collected into a
    `HashMap<Integer, List<ShapePoint>>` keyed by `getId()`, each point
    appended to its key's list in the order the feed store returns them. */
module Grouping {

  import opened Shapes

  /** Reference definition of a group: the points of `ps` whose id is `k`,
      in encounter order. */
  function WithId(ps: seq<ShapePoint>, k: Int32): seq<ShapePoint>
  {
    if |ps| == 0 then []
    else (if ps[0].id == k then [ps[0]] else []) + WithId(ps[1..], k)
  }

  /** The distinct keys present in `ps`. */
  function Ids(ps: seq<ShapePoint>): set<Int32>
  {
    set p: ShapePoint | p in ps :: p.id
  }

  /** `byId` holds exactly the keys of `ps`, and under each key the
      points of `ps` with that id in encounter order. */
  ghost predicate GroupsOf(byId: map<Int32, seq<ShapePoint>>, ps: seq<ShapePoint>)
  {
    && byId.Keys == Ids(ps)
    && forall k :: k in byId ==> byId[k] == WithId(ps, k)
  }

  /** One iteration of the grouping loop: look the key up, create an empty
      list the first time it is seen, append the point. */
  function AddPoint(byId: map<Int32, seq<ShapePoint>>, p: ShapePoint): map<Int32, seq<ShapePoint>>
  {
    var group := if p.id in byId then byId[p.id] else [];
    byId[p.id := group + [p]]
  }

  /** The grouping loop over the whole feed. */
  function GroupById(ps: seq<ShapePoint>): (byId: map<Int32, seq<ShapePoint>>)
    ensures GroupsOf(byId, ps)
  {
    if |ps| == 0 then map[]
    else
      var init := ps[..|ps| - 1];
      var p := ps[|ps| - 1];
      assert ps == init + [p];
      AddPointKeepsGroups(GroupById(init), init, p);
      AddPoint(GroupById(init), p)
  }

  /** Appending a point to its own group keeps the grouping exact. */
  lemma {:induction false} AddPointKeepsGroups(byId: map<Int32, seq<ShapePoint>>, ps: seq<ShapePoint>, p: ShapePoint)
    requires GroupsOf(byId, ps)
    ensures GroupsOf(AddPoint(byId, p), ps + [p])
  {
    IdsSnoc(ps, p);
    WithIdAbsent(ps, p.id);
    var m := AddPoint(byId, p);
    forall k | k in m ensures m[k] == WithId(ps + [p], k) {
      WithIdSnoc(ps, p, k);
    }
  }

  lemma IdsSnoc(ps: seq<ShapePoint>, p: ShapePoint)
    ensures Ids(ps + [p]) == Ids(ps) + {p.id}
  {
    forall k ensures k in Ids(ps + [p]) <==> k in Ids(ps) + {p.id} {
      if k in Ids(ps + [p]) {
        var q :| q in ps + [p] && q.id == k;
        if q != p { assert q in ps; }
      }
      if k in Ids(ps) {
        var q :| q in ps && q.id == k;
        assert q in ps + [p];
      }
      assert p in ps + [p];
    }
  }

  lemma {:induction false} WithIdCons(p: ShapePoint, ps: seq<ShapePoint>, k: Int32)
    ensures WithId([p] + ps, k) == (if p.id == k then [p] else []) + WithId(ps, k)
  {
    assert ([p] + ps)[1..] == ps;
  }

  lemma {:induction false} WithIdSnoc(ps: seq<ShapePoint>, p: ShapePoint, k: Int32)
    ensures WithId(ps + [p], k) == WithId(ps, k) + (if p.id == k then [p] else [])
  {
    if |ps| == 0 {
      assert ps + [p] == [p] + [];
      WithIdCons(p, [], k);
    } else {
      WithIdSnoc(ps[1..], p, k);
      assert ps + [p] == [ps[0]] + (ps[1..] + [p]);
      WithIdCons(ps[0], ps[1..] + [p], k);
    }
  }

  lemma {:induction false} WithIdMembers(ps: seq<ShapePoint>, k: Int32, q: ShapePoint)
    ensures q in WithId(ps, k) <==> q in ps && q.id == k
  {
    if |ps| > 0 {
      WithIdMembers(ps[1..], k, q);
      WithIdCons(ps[0], ps[1..], k);
      assert ps == [ps[0]] + ps[1..];
    }
  }

  /** A key that no point carries has an empty group. */
  lemma WithIdAbsent(ps: seq<ShapePoint>, k: Int32)
    ensures k !in Ids(ps) ==> WithId(ps, k) == []
  {
    if WithId(ps, k) != [] {
      WithIdMembers(ps, k, WithId(ps, k)[0]);
    }
  }

  /** Every input point lands in the group of its own id, every point of a
      group comes from the input and carries the group's key, and no group
      is empty: the groups partition the input by id. */
  lemma {:induction false} GroupingPartitions(ps: seq<ShapePoint>)
    ensures var byId := GroupById(ps);
      forall q :: q in ps ==> q.id in byId && q in byId[q.id]
    ensures var byId := GroupById(ps);
      forall k :: k in byId ==> |byId[k]| > 0 && forall q :: q in byId[k] ==> q in ps && q.id == k
  {
    var byId := GroupById(ps);
    forall q | q in ps ensures q.id in byId && q in byId[q.id] {
      assert q.id in Ids(ps);
      WithIdMembers(ps, q.id, q);
    }
    forall k | k in byId ensures |byId[k]| > 0 && forall q :: q in byId[k] ==> q in ps && q.id == k {
      forall q | q in WithId(ps, k) ensures q in ps && q.id == k {
        WithIdMembers(ps, k, q);
      }
      assert k in Ids(ps);
      var q :| q in ps && q.id == k;
      WithIdMembers(ps, k, q);
    }
  }

  predicate Distinct(keys: seq<Int32>)
  {
    forall i, j :: 0 <= i < j < |keys| ==> keys[i] != keys[j]
  }

  /** `keys` visits every key of `ids` exactly once: what iterating
      `HashMap.keySet()` does, in an order the map does not specify. */
  predicate Enumerates(keys: seq<Int32>, ids: set<Int32>)
  {
    && Distinct(keys)
    && (forall k :: k in keys ==> k in ids)
    && (forall k :: k in ids ==> k in keys)
  }

  lemma {:induction false} DistinctSize(keys: seq<Int32>)
    requires Distinct(keys)
    ensures |set k: Int32 | k in keys| == |keys|
  {
    if |keys| > 0 {
      var rest := keys[1..];
      DistinctTail(keys);
      DistinctSize(rest);
      var restSet := set k: Int32 | k in rest;
      assert keys[0] !in restSet;
      assert keys == [keys[0]] + rest;
      assert (set k: Int32 | k in keys) == restSet + {keys[0]};
      assert restSet * {keys[0]} == {};
      assert |restSet + {keys[0]}| == |restSet| + 1;
    }
  }

  /** An enumeration of the keys has one entry per distinct key. */
  lemma EnumerationSize(keys: seq<Int32>, ids: set<Int32>)
    requires Enumerates(keys, ids)
    ensures |keys| == |ids|
  {
    DistinctSize(keys);
    assert (set k: Int32 | k in keys) == ids;
  }

  /** The groups of `keys`, one after the other. */
  function Concat(ps: seq<ShapePoint>, keys: seq<Int32>): seq<ShapePoint>
  {
    if |keys| == 0 then [] else WithId(ps, keys[0]) + Concat(ps, keys[1..])
  }

  lemma {:induction false} ConcatCons(p: ShapePoint, ps: seq<ShapePoint>, keys: seq<Int32>)
    requires Distinct(keys)
    ensures multiset(Concat([p] + ps, keys))
         == multiset(Concat(ps, keys)) + (if p.id in keys then multiset{p} else multiset{})
  {
    if |keys| > 0 {
      var rest := keys[1..];
      DistinctTail(keys);
      ConcatCons(p, ps, rest);
      WithIdCons(p, ps, keys[0]);
      assert multiset(Concat([p] + ps, keys))
          == multiset(WithId([p] + ps, keys[0])) + multiset(Concat([p] + ps, rest));
      assert multiset(Concat(ps, keys))
          == multiset(WithId(ps, keys[0])) + multiset(Concat(ps, rest));
      assert p.id in keys <==> p.id == keys[0] || p.id in rest;
    }
  }

  lemma DistinctTail(keys: seq<Int32>)
    requires Distinct(keys) && |keys| > 0
    ensures Distinct(keys[1..]) && keys[0] !in keys[1..]
  {
    var rest := keys[1..];
    forall i, j | 0 <= i < j < |rest| ensures rest[i] != rest[j] {
      assert rest[i] == keys[i + 1] && rest[j] == keys[j + 1];
    }
    forall j | 0 <= j < |rest| ensures rest[j] != keys[0] {
      assert rest[j] == keys[j + 1];
    }
  }

  /** Taken over all keys, the groups hold exactly the input points, each as
      often as it occurs in the input: grouping loses and duplicates nothing. */
  lemma {:induction false} GroupsPermuteInput(ps: seq<ShapePoint>, keys: seq<Int32>)
    requires Enumerates(keys, Ids(ps))
    ensures multiset(Concat(ps, keys)) == multiset(ps)
    ensures |Concat(ps, keys)| == |ps|
  {
    forall p | p in ps ensures p.id in keys {
      assert p.id in Ids(ps);
    }
    ConcatSubset(ps, keys);
    assert |multiset(Concat(ps, keys))| == |multiset(ps)|;
  }

  /** Generalisation of `GroupsPermuteInput` to keys that may cover more than `ps`. */
  lemma {:induction false} ConcatSubset(ps: seq<ShapePoint>, keys: seq<Int32>)
    requires Distinct(keys)
    requires forall p :: p in ps ==> p.id in keys
    ensures multiset(Concat(ps, keys)) == multiset(ps)
  {
    if |ps| > 0 {
      var tail := ps[1..];
      assert ps == [ps[0]] + tail;
      ConcatCons(ps[0], tail, keys);
      ConcatSubset(tail, keys);
    } else {
      ConcatOfNothing(keys);
    }
  }

  lemma {:induction false} ConcatOfNothing(keys: seq<Int32>)
    ensures Concat([], keys) == []
  {
    if |keys| > 0 {
      ConcatOfNothing(keys[1..]);
    }
  }
}

=== FILE: mapcreator.dfy ===
/** `MapCreator.main` of both entry points: check the command line, read
    the feed, assemble one road per grouping key, write the roads.

    The environment is given as parameters: `feed` is what the GTFS reader
    produced (`None` when it threw an `IOException`), `keys` is the order in
    which `HashMap.keySet()` happens to visit the keys, `natural` is
    `ShapePoint.compareTo` (used by the thetransitclock tool) and `fault`
    says whether, and where, the map writer throws. */
module MapCreator {

  import opened Wrappers
  import opened Shapes
  import Ordering
  import ShapePointComparator
  import Grouping
  import Polylines
  import Roads
  import opened Effects
  import opened CommandLine

  /** The order each group is sorted by: the points' natural order in the
      thetransitclock tool, `ShapePointComparator` in the onebusaway tool. */
  function GroupOrder(entry: EntryPoint, natural: (ShapePoint, ShapePoint) -> bool): (le: (ShapePoint, ShapePoint) -> bool)
    ensures entry == OneBusAway ==> forall a, b :: le(a, b) <==> a.id <= b.id
    ensures entry == TheTransitClock ==> forall a, b :: le(a, b) == natural(a, b)
    ensures Ordering.TotalPreorder(natural) ==> Ordering.TotalPreorder(le)
  {
    match entry
    case TheTransitClock => natural
    case OneBusAway =>
      ShapePointComparator.ByIdIsTotalPreorder();
      ShapePointComparator.ById
  }

  /** Shape assembly: group the points by id, then for each key in `keys`
      sort its group, build its polyline and make its road, the counter
      starting at 0. */
  function Assemble(entry: EntryPoint, points: seq<ShapePoint>, keys: seq<Int32>,
                    natural: (ShapePoint, ShapePoint) -> bool): (roads: seq<Roads.BaseRoad>)
    requires Ordering.TotalPreorder(natural)
    requires Grouping.Enumerates(keys, Grouping.Ids(points))
    ensures |roads| == |keys| == |Grouping.Ids(points)|
    ensures forall i :: 0 <= i < |roads| ==> RoadOfKey(roads[i], keys[i], i, |Grouping.WithId(points, keys[i])|)
  {
    Grouping.EnumerationSize(keys, Grouping.Ids(points));
    var byId := Grouping.GroupById(points);
    var le := GroupOrder(entry, natural);
    assert forall k :: k in keys ==> k in byId;
    var roads := Roads.BuildRoads(keys, byId, le, 0);
    assert forall i :: 0 <= i < |roads| ==> RoadOfKey(roads[i], keys[i], i, |Grouping.WithId(points, keys[i])|) by {
      forall i | 0 <= i < |roads|
        ensures RoadOfKey(roads[i], keys[i], i, |Grouping.WithId(points, keys[i])|)
      {
        assert keys[i] in byId;
        assert byId[keys[i]] == Grouping.WithId(points, keys[i]);
      }
    }
    roads
  }

  /** `Assemble` is the key loop over the grouping map, sorting by the
      tool's order, with the counter starting at 0. */
  lemma AssembleIsKeyLoop(entry: EntryPoint, points: seq<ShapePoint>, keys: seq<Int32>,
                          natural: (ShapePoint, ShapePoint) -> bool)
    requires Ordering.TotalPreorder(natural)
    requires Grouping.Enumerates(keys, Grouping.Ids(points))
    ensures Ordering.TotalPreorder(GroupOrder(entry, natural))
    ensures forall k :: k in keys ==> k in Grouping.GroupById(points)
    ensures Assemble(entry, points, keys, natural)
         == Roads.BuildRoads(keys, Grouping.GroupById(points), GroupOrder(entry, natural), 0)
  {
  }

  /** The road made for `key` as the `n`-th road: it carries the key as id
      and refid, `n` as both node ids, the fixed attributes, and one segment
      per point of a group of `size` points. */
  predicate RoadOfKey(r: Roads.BaseRoad, key: Int32, n: int, size: nat)
  {
    && r.id == r.refid == key
    && r.source == r.target == n
    && Roads.FixedAttributes(r)
    && |r.geometry| == size
  }

  /** Roads numbered in order, labelled by a duplicate-free key sequence:
      their ids are pairwise different, their node ids strictly increase,
      and every key labels one of them. */
  lemma RoadsFollowKeys(roads: seq<Roads.BaseRoad>, keys: seq<Int32>)
    requires |roads| == |keys| && Grouping.Distinct(keys)
    requires forall i :: 0 <= i < |roads| ==> roads[i].id == keys[i] && roads[i].source == i
    ensures forall i, j :: 0 <= i < j < |roads| ==>
      roads[i].id != roads[j].id && roads[i].source < roads[j].source
    ensures forall k :: k in keys ==> exists i :: 0 <= i < |roads| && roads[i].id == k
  {
    forall k | k in keys ensures exists i :: 0 <= i < |roads| && roads[i].id == k {
      var i :| 0 <= i < |keys| && keys[i] == k;
      assert roads[i].id == k;
    }
  }

  /** One road per distinct key: the k-th road built carries the k-th key as
      id and refid, k as both node ids, and the fixed attributes. Ids are
      therefore unique and node ids strictly increasing across roads. */
  lemma {:induction false} AssembleOneRoadPerKey(entry: EntryPoint, points: seq<ShapePoint>, keys: seq<Int32>,
                                                 natural: (ShapePoint, ShapePoint) -> bool)
    requires Ordering.TotalPreorder(natural)
    requires Grouping.Enumerates(keys, Grouping.Ids(points))
    ensures var roads := Assemble(entry, points, keys, natural);
      && |roads| == |Grouping.Ids(points)|
      && (forall i :: 0 <= i < |roads| ==>
            && roads[i].id == roads[i].refid == keys[i]
            && roads[i].source == roads[i].target == i
            && Roads.FixedAttributes(roads[i]))
      && (forall i, j :: 0 <= i < j < |roads| ==>
            roads[i].id != roads[j].id && roads[i].source < roads[j].source)
      && (forall k :: k in Grouping.Ids(points) ==> exists i :: 0 <= i < |roads| && roads[i].id == k)
  {
    var roads := Assemble(entry, points, keys, natural);
    forall i | 0 <= i < |roads|
      ensures && roads[i].id == roads[i].refid == keys[i]
              && roads[i].source == roads[i].target == i
              && Roads.FixedAttributes(roads[i])
    {
      assert RoadOfKey(roads[i], keys[i], i, |Grouping.WithId(points, keys[i])|);
    }
    RoadsFollowKeys(roads, keys);
    forall k | k in Grouping.Ids(points) ensures exists i :: 0 <= i < |roads| && roads[i].id == k {
      assert k in keys;
    }
  }

  /** The geometry of the road for `keys[i]` is the polyline of that key's
      points, ordered by whichever stable sort of them by the group order:
      the result does not depend on which stable algorithm sorts. It has
      one segment per point of the group. */
  lemma {:induction false} AssembleGeometry(entry: EntryPoint, points: seq<ShapePoint>, keys: seq<Int32>,
                                            natural: (ShapePoint, ShapePoint) -> bool, i: nat, sorted: seq<ShapePoint>)
    requires Ordering.TotalPreorder(natural)
    requires Grouping.Enumerates(keys, Grouping.Ids(points))
    requires i < |keys|
    requires Ordering.Sorted(GroupOrder(entry, natural), sorted)
    requires Ordering.SameClasses(GroupOrder(entry, natural), Grouping.WithId(points, keys[i]), sorted)
    ensures |Assemble(entry, points, keys, natural)| == |keys|
    ensures Assemble(entry, points, keys, natural)[i].geometry == Polylines.BuildPolyline(sorted)
    ensures |Assemble(entry, points, keys, natural)[i].geometry| == |Grouping.WithId(points, keys[i])|
  {
    AssembleIsKeyLoop(entry, points, keys, natural);
    var byId := Grouping.GroupById(points);
    var g := Grouping.WithId(points, keys[i]);
    assert keys[i] in byId;
    assert byId[keys[i]] == g;
    Ordering.SortIsTheStableSort(GroupOrder(entry, natural), g, sorted);
  }

  /** In the onebusaway tool every group is sorted by id, which all its
      points share, so each road's polyline follows the points in the order
      the feed store returned them. */
  lemma {:induction false} OneBusAwayKeepsEncounterOrder(points: seq<ShapePoint>, keys: seq<Int32>,
                                                         natural: (ShapePoint, ShapePoint) -> bool)
    requires Ordering.TotalPreorder(natural)
    requires Grouping.Enumerates(keys, Grouping.Ids(points))
    ensures var roads := Assemble(OneBusAway, points, keys, natural);
      forall i :: 0 <= i < |roads| ==>
        roads[i].geometry == Polylines.BuildPolyline(Grouping.WithId(points, keys[i]))
  {
    AssembleIsKeyLoop(OneBusAway, points, keys, natural);
    var byId := Grouping.GroupById(points);
    var le := GroupOrder(OneBusAway, natural);
    assert le == ShapePointComparator.ById;
    var roads := Roads.BuildRoads(keys, byId, le, 0);
    forall i | 0 <= i < |roads|
      ensures roads[i].geometry == Polylines.BuildPolyline(Grouping.WithId(points, keys[i]))
    {
      var g := Grouping.WithId(points, keys[i]);
      assert keys[i] in byId;
      assert byId[keys[i]] == g;
      forall j | 0 <= j < |g| ensures g[j].id == keys[i] {
        Grouping.WithIdMembers(points, keys[i], g[j]);
      }
      ShapePointComparator.SortByIdKeepsSameIdGroup(g, keys[i]);
      assert roads[i].geometry == Polylines.BuildPolyline(Ordering.Sort(le, g));
    }
  }

  /** A shape of three points (0,0), (1,0), (1,1) under one id gives one
      road whose polyline has three segments: the zero-length one at (0,0),
      then (0,0) to (1,0), then (1,0) to (1,1). */
  lemma ThreePointShape(natural: (ShapePoint, ShapePoint) -> bool)
    requires Ordering.TotalPreorder(natural)
    ensures var points := [ShapePoint(7, "S1", 1, 0.0, 0.0),
                           ShapePoint(7, "S1", 2, 0.0, 1.0),
                           ShapePoint(7, "S1", 3, 1.0, 1.0)];
      && Grouping.Enumerates([7], Grouping.Ids(points))
      && Assemble(OneBusAway, points, [7], natural)
         == [Roads.BaseRoad(7, 0, 0, 7, true, Roads.ROAD_TYPE, Roads.PRIORITY,
                            Roads.MAX_SPEED_FORWARD, Roads.MAX_SPEED_BACKWARD, Roads.LENGTH,
                            [Segment(Point(0.0, 0.0), Point(0.0, 0.0)),
                             Segment(Point(0.0, 0.0), Point(1.0, 0.0)),
                             Segment(Point(1.0, 0.0), Point(1.0, 1.0))])]
  {
    var points := [ShapePoint(7, "S1", 1, 0.0, 0.0),
                   ShapePoint(7, "S1", 2, 0.0, 1.0),
                   ShapePoint(7, "S1", 3, 1.0, 1.0)];
    assert Grouping.Ids(points) == {7} by {
      assert points[0] in points;
    }
    assert Grouping.Enumerates([7], Grouping.Ids(points));
    assert Grouping.WithId(points, 7) == points by {
      Grouping.WithIdCons(points[0], points[1..], 7);
      Grouping.WithIdCons(points[1], points[2..], 7);
      Grouping.WithIdCons(points[2], points[3..], 7);
      assert points[3..] == [];
    }
    var segs := [Segment(Point(0.0, 0.0), Point(0.0, 0.0)),
                 Segment(Point(0.0, 0.0), Point(1.0, 0.0)),
                 Segment(Point(1.0, 0.0), Point(1.0, 1.0))];
    assert Polylines.BuildPolyline(points) == segs;
    var roads := Assemble(OneBusAway, points, [7], natural);
    OneBusAwayKeepsEncounterOrder(points, [7], natural);
    AssembleOneRoadPerKey(OneBusAway, points, [7], natural);
    assert |roads| == 1;
    assert roads[0].geometry == segs;
  }

  /** `Long.MAX_VALUE`, the largest value of `segmentCounter`'s type. */
  const LONG_MAX: int := 0x7FFF_FFFF_FFFF_FFFF

  /** `segmentCounter` is a Java `long`. The keys are distinct Java ints, so
      there are at most 2^32 roads; every node id, and the counter's final
      value after the last increment, stays far below `Long.MAX_VALUE`. */
  lemma CounterFitsInLong(entry: EntryPoint, points: seq<ShapePoint>, keys: seq<Int32>,
                          natural: (ShapePoint, ShapePoint) -> bool)
    requires Ordering.TotalPreorder(natural)
    requires Grouping.Enumerates(keys, Grouping.Ids(points))
    ensures var roads := Assemble(entry, points, keys, natural);
      && |roads| <= 0x1_0000_0000
      && |roads| <= LONG_MAX
      && forall i :: 0 <= i < |roads| ==> 0 <= roads[i].source < |roads|
  {
    DistinctInt32Bound(keys);
  }

  /** Distinct Java ints number at most 2^32. */
  lemma DistinctInt32Bound(keys: seq<Int32>)
    requires Grouping.Distinct(keys)
    ensures |keys| <= 0x1_0000_0000
  {
    Grouping.DistinctSize(keys);
    RangeSize(INT_MIN, INT_MAX + 1);
    var used: set<int> := set k: Int32 | k in keys;
    var all := Range(INT_MIN, INT_MAX + 1);
    assert used <= all;
    SubsetSize(used, all);
  }

  /** The integers from `lo` up to but excluding `hi`. */
  ghost function Range(lo: int, hi: int): set<int>
    decreases hi - lo
  {
    if hi <= lo then {} else Range(lo, hi - 1) + {hi - 1}
  }

  lemma {:induction false} RangeSize(lo: int, hi: int)
    requires lo <= hi
    ensures |Range(lo, hi)| == hi - lo
    ensures forall x :: x in Range(lo, hi) <==> lo <= x < hi
    decreases hi - lo
  {
    if lo < hi {
      RangeSize(lo, hi - 1);
      assert Range(lo, hi - 1) * {hi - 1} == {};
    }
  }

  lemma {:induction false} SubsetSize<T>(a: set<T>, b: set<T>)
    requires a <= b
    ensures |a| <= |b|
  {
    assert b == a + (b - a);
    assert a * (b - a) == {};
  }

  /** Where, if anywhere, the `BfmapWriter` throws an `IOException`:
      in `open`, in the `index`-th call of `write`, or in `close`. */
  datatype WriterFault = NoFault | OpenFails | WriteFails(index: nat) | CloseFails

  /** Whether the fault is hit while writing `count` roads. */
  predicate FaultHit(fault: WriterFault, count: nat)
  {
    !fault.NoFault? && !(fault.WriteFails? && fault.index >= count)
  }

  /** Open the writer, write every road in list order, close it. An
      exception ends the writing and is printed; the partly written file is
      left behind. */
  function WriteMap(roads: seq<Roads.BaseRoad>, fault: WriterFault): (effects: seq<Effect>)
    ensures Written(effects) <= roads
    ensures !FaultHit(fault, |roads|) ==> Written(effects) == roads && CloseWriter in effects
    ensures ReportError in effects <==> FaultHit(fault, |roads|)
    ensures FaultHit(fault, |roads|) ==> |effects| > 0 && effects[|effects| - 1] == ReportError
    ensures fault.OpenFails? ==> Written(effects) == []
    ensures fault.WriteFails? && fault.index < |roads| ==> |Written(effects)| == fault.index
    ensures fault.CloseFails? ==> Written(effects) == roads
  {
    match fault
    case OpenFails =>
      assert Written([ReportError]) == Written([]) by { assert [ReportError][1..] == []; }
      [ReportError]
    case WriteFails(k) =>
      if k < |roads| then
        WrittenPartialFile(roads[..k], [ReportError]);
        [OpenWriter] + Writes(roads[..k]) + [ReportError]
      else
        WrittenCompleteFile(roads);
        [OpenWriter] + Writes(roads) + [CloseWriter]
    case NoFault =>
      WrittenCompleteFile(roads);
      [OpenWriter] + Writes(roads) + [CloseWriter]
    case CloseFails =>
      WrittenPartialFile(roads, [CloseWriter, ReportError]);
      [OpenWriter] + Writes(roads) + [CloseWriter, ReportError]
  }

  lemma WrittenCompleteFile(roads: seq<Roads.BaseRoad>)
    ensures Written([OpenWriter] + Writes(roads) + [CloseWriter]) == roads
    ensures ReportError !in [OpenWriter] + Writes(roads) + [CloseWriter]
    ensures CloseWriter in [OpenWriter] + Writes(roads) + [CloseWriter]
  {
    WrittenPartialFile(roads, [CloseWriter]);
  }

  lemma WrittenPartialFile(roads: seq<Roads.BaseRoad>, tail: seq<Effect>)
    requires forall e :: e in tail ==> !e.WriteRoad?
    ensures Written([OpenWriter] + Writes(roads) + tail) == roads
    ensures ReportError in [OpenWriter] + Writes(roads) + tail <==> ReportError in tail
  {
    WrittenAppend([OpenWriter] + Writes(roads), tail);
    WrittenAppend([OpenWriter], Writes(roads));
    WrittenWrites(roads);
    assert [OpenWriter][1..] == [];
    NoWritesWrittenNothing(tail);
  }

  lemma {:induction false} NoWritesWrittenNothing(effects: seq<Effect>)
    requires forall e :: e in effects ==> !e.WriteRoad?
    ensures Written(effects) == []
  {
    if |effects| > 0 {
      assert effects[0] in effects;
      NoWritesWrittenNothing(effects[1..]);
    }
  }

  /** `main` after the guard has let it through and the feed was read:
      assemble and write the roads. */
  function ReadAndWrite(roads: seq<Roads.BaseRoad>, fault: WriterFault): (effects: seq<Effect>)
    ensures |effects| > 0 && effects[0] == ReadFeed
    ensures Written(effects) <= roads
    ensures !FaultHit(fault, |roads|) ==> Written(effects) == roads
    ensures ReportError in effects <==> FaultHit(fault, |roads|)
    ensures forall e :: e in effects ==> !e.Exit? && !e.DisplayUsage?
  {
    var out := WriteMap(roads, fault);
    WrittenAppend([ReadFeed], out);
    NoWritesWrittenNothing([ReadFeed]);
    WriteMapNoExit(roads, fault);
    [ReadFeed] + out
  }

  lemma WriteMapNoExit(roads: seq<Roads.BaseRoad>, fault: WriterFault)
    ensures forall e :: e in WriteMap(roads, fault) ==> !e.Exit? && !e.DisplayUsage? && !e.ReadFeed?
  {
    match fault
    case OpenFails =>
    case WriteFails(k) =>
      if k < |roads| {
        WriterOnly(Writes(roads[..k]), [ReportError]);
      } else {
        WriterOnly(Writes(roads), [CloseWriter]);
      }
    case NoFault =>
      WriterOnly(Writes(roads), [CloseWriter]);
    case CloseFails =>
      WriterOnly(Writes(roads), [CloseWriter, ReportError]);
  }

  /** A trace of writer calls and error reports neither exits, shows usage
      nor reads. */
  lemma WriterOnly(w: seq<Effect>, tail: seq<Effect>)
    requires forall e :: e in w ==> e.WriteRoad?
    requires forall e :: e in tail ==> e == CloseWriter || e == ReportError
    ensures forall e :: e in [OpenWriter] + w + tail ==> !e.Exit? && !e.DisplayUsage? && !e.ReadFeed?
  {
  }

  /** The `try` block of `main` and its `catch (IOException e)`: the reader
      is given the feed; when that throws (`feed` is `None`) the stack trace
      is printed and nothing else happens, otherwise the roads are assembled
      and written. */
  function ConvertFeed(entry: EntryPoint, feed: Option<seq<ShapePoint>>, keys: seq<Int32>,
                       natural: (ShapePoint, ShapePoint) -> bool, fault: WriterFault): (effects: seq<Effect>)
    requires Ordering.TotalPreorder(natural)
    requires feed.Some? ==> Grouping.Enumerates(keys, Grouping.Ids(feed.value))
    ensures |effects| > 0 && effects[0] == ReadFeed
    ensures forall e :: e in effects ==> !e.Exit? && !e.DisplayUsage?
    ensures feed.None? ==> effects == [ReadFeed, ReportError] && Written(effects) == []
    ensures feed.Some? ==> Written(effects) <= Assemble(entry, feed.value, keys, natural)
    ensures feed.Some? && !FaultHit(fault, |Assemble(entry, feed.value, keys, natural)|) ==>
      Written(effects) == Assemble(entry, feed.value, keys, natural)
    ensures feed.Some? ==>
      (ReportError in effects <==> FaultHit(fault, |Assemble(entry, feed.value, keys, natural)|))
  {
    match feed
    case None =>
      assert Written([ReadFeed, ReportError]) == [] by {
        NoWritesWrittenNothing([ReadFeed, ReportError]);
      }
      [ReadFeed, ReportError]
    case Some(points) =>
      ReadAndWrite(Assemble(entry, points, keys, natural), fault)
  }

  /** One run of `main`. */
  function RunMapCreator(entry: EntryPoint, args: ParseResult, feed: Option<seq<ShapePoint>>,
                         keys: seq<Int32>, natural: (ShapePoint, ShapePoint) -> bool,
                         fault: WriterFault): (effects: seq<Effect>)
    requires Ordering.TotalPreorder(natural)
    requires feed.Some? ==> Grouping.Enumerates(keys, Grouping.Ids(feed.value))
    ensures ReadFeed in effects <==> ConversionRequested(args)
    ensures !ConversionRequested(args) ==> DisplayUsage in effects && Written(effects) == []
    ensures forall e :: e in effects && e.Exit? ==> e.status == 0
    ensures feed.None? ==> Written(effects) == []
    ensures feed.Some? ==> Written(effects) <= Assemble(entry, feed.value, keys, natural)
    ensures ConversionRequested(args) && feed.Some? && fault.NoFault? ==>
      Written(effects) == Assemble(entry, feed.value, keys, natural)
    ensures ConversionRequested(args) && feed.None? ==> ReportError in effects
    ensures !ConversionRequested(args) ==> effects == ProcessCommandLineOptions(entry, args).effects
    ensures !ConversionRequested(args) && entry == TheTransitClock ==> effects[|effects| - 1] == Exit(0)
    ensures ConversionRequested(args) && feed.None? ==> effects == [ReadFeed, ReportError]
    ensures !ConversionRequested(args) || feed.None? ==> OpenWriter !in effects && CloseWriter !in effects
    ensures ConversionRequested(args) && feed.Some? ==>
      (ReportError in effects <==> FaultHit(fault, |Assemble(entry, feed.value, keys, natural)|))
  {
    if !ConversionRequested(args) then
      var g := ProcessCommandLineOptions(entry, args);
      NoWritesWrittenNothing(g.effects);
      assert ReadFeed !in g.effects && OpenWriter !in g.effects && CloseWriter !in g.effects;
      g.effects
    else
      var out := ConvertFeed(entry, feed, keys, natural, fault);
      assert ReadFeed in out && OpenWriter !in [ReadFeed, ReportError] && CloseWriter !in [ReadFeed, ReportError];
      out
  }
}

=== FILE: ordering.dfy ===
/** Sorting as `java.util.Collections.sort` does it: a stable sort by a
    comparison that is a total preorder. The sort is given once, as an
    insertion sort, and characterised independently of that algorithm:
    its result is sorted, is a permutation of its input, and keeps each
    class of mutually equivalent elements in input order. The uniqueness
    lemma shows that this characterisation pins the result down, so any
    stable sort (Java's merge sort included) returns the same sequence. */
module Ordering {

  /** `le(a, b)` reads "a may come before b", i.e. `compare(a, b) <= 0`. */
  ghost predicate TotalPreorder<T(!new)>(le: (T, T) -> bool)
  {
    && (forall a, b :: le(a, b) || le(b, a))
    && (forall a, b, c :: le(a, b) && le(b, c) ==> le(a, c))
  }

  /** `compare(a, b) == 0`. */
  predicate Equiv<T>(le: (T, T) -> bool, a: T, b: T)
  {
    le(a, b) && le(b, a)
  }

  predicate Sorted<T>(le: (T, T) -> bool, s: seq<T>)
  {
    forall i, j :: 0 <= i < j < |s| ==> le(s[i], s[j])
  }

  /** The elements of `s` equivalent to `x`, in the order they occur in `s`. */
  function ClassOf<T>(le: (T, T) -> bool, s: seq<T>, x: T): seq<T>
  {
    if |s| == 0 then []
    else (if Equiv(le, s[0], x) then [s[0]] else []) + ClassOf(le, s[1..], x)
  }

  /** `t` lists every equivalence class of `s` in the same order as `s`. */
  ghost predicate SameClasses<T(!new)>(le: (T, T) -> bool, s: seq<T>, t: seq<T>)
  {
    forall x :: ClassOf(le, s, x) == ClassOf(le, t, x)
  }

  /** Places `x` before the first element it may precede. */
  function Insert<T>(le: (T, T) -> bool, x: T, s: seq<T>): seq<T>
  {
    if |s| == 0 then [x]
    else if le(x, s[0]) then [x] + s
    else [s[0]] + Insert(le, x, s[1..])
  }

  /** Stable sort of `s` by `le`. */
  function Sort<T(!new)>(le: (T, T) -> bool, s: seq<T>): (r: seq<T>)
    requires TotalPreorder(le)
    ensures |r| == |s|
    ensures multiset(r) == multiset(s)
    ensures Sorted(le, r)
    ensures SameClasses(le, s, r)
  {
    if |s| == 0 then []
    else
      var t := Sort(le, s[1..]);
      InsertPermutes(le, s[0], t);
      InsertSorted(le, s[0], t);
      assert s == [s[0]] + s[1..];
      forall x ensures ClassOf(le, s, x) == ClassOf(le, Insert(le, s[0], t), x) {
        InsertClass(le, s[0], t, x);
      }
      Insert(le, s[0], t)
  }

  lemma {:induction false} InsertPermutes<T>(le: (T, T) -> bool, x: T, s: seq<T>)
    ensures multiset(Insert(le, x, s)) == multiset(s) + multiset{x}
    ensures |Insert(le, x, s)| == |s| + 1
  {
    if |s| == 0 {
    } else if le(x, s[0]) {
    } else {
      InsertPermutes(le, x, s[1..]);
      assert s == [s[0]] + s[1..];
    }
  }

  lemma {:induction false} InsertSorted<T(!new)>(le: (T, T) -> bool, x: T, s: seq<T>)
    requires TotalPreorder(le)
    requires Sorted(le, s)
    ensures Sorted(le, Insert(le, x, s))
  {
    if |s| == 0 {
    } else if le(x, s[0]) {
      forall j | 0 <= j < |s| ensures le(x, s[j]) {
        if j > 0 { assert le(s[0], s[j]); }
      }
      SortedCons(le, x, s);
    } else {
      var tail := Insert(le, x, s[1..]);
      InsertSorted(le, x, s[1..]);
      InsertLowerBound(le, x, s[1..], s[0]);
      SortedCons(le, s[0], tail);
    }
  }

  /** An element that may precede all of a sorted sequence may be put in front of it. */
  lemma SortedCons<T>(le: (T, T) -> bool, y: T, t: seq<T>)
    requires Sorted(le, t)
    requires forall j :: 0 <= j < |t| ==> le(y, t[j])
    ensures Sorted(le, [y] + t)
  {
    var r := [y] + t;
    forall i, j | 0 <= i < j < |r| ensures le(r[i], r[j]) {
      assert r[j] == t[j - 1];
      if i > 0 { assert r[i] == t[i - 1]; }
    }
  }

  lemma {:induction false} InsertLowerBound<T(!new)>(le: (T, T) -> bool, x: T, s: seq<T>, y: T)
    requires le(y, x)
    requires forall j :: 0 <= j < |s| ==> le(y, s[j])
    ensures forall j :: 0 <= j < |Insert(le, x, s)| ==> le(y, Insert(le, x, s)[j])
  {
    if |s| > 0 && !le(x, s[0]) {
      InsertLowerBound(le, x, s[1..], y);
      var r := Insert(le, x, s);
      assert r == [s[0]] + Insert(le, x, s[1..]);
      forall j | 0 < j < |r| ensures le(y, r[j]) {
        assert r[j] == Insert(le, x, s[1..])[j - 1];
      }
    } else if |s| > 0 {
      var r := Insert(le, x, s);
      forall j | 0 < j < |r| ensures le(y, r[j]) {
        assert r[j] == s[j - 1];
      }
    }
  }

  lemma {:induction false} ClassOfCons<T>(le: (T, T) -> bool, y: T, s: seq<T>, x: T)
    ensures ClassOf(le, [y] + s, x)
         == (if Equiv(le, y, x) then [y] else []) + ClassOf(le, s, x)
  {
    assert ([y] + s)[1..] == s;
  }

  /** Inserting `x` adds it at the front of its own class and changes no other class. */
  lemma {:induction false} InsertClass<T(!new)>(le: (T, T) -> bool, x: T, s: seq<T>, c: T)
    requires TotalPreorder(le)
    ensures ClassOf(le, Insert(le, x, s), c)
         == (if Equiv(le, x, c) then [x] else []) + ClassOf(le, s, c)
  {
    if |s| == 0 {
      ClassOfCons(le, x, [], c);
    } else if le(x, s[0]) {
      ClassOfCons(le, x, s, c);
    } else {
      assert Insert(le, x, s) == [s[0]] + Insert(le, x, s[1..]);
      InsertClass(le, x, s[1..], c);
      ClassOfCons(le, s[0], Insert(le, x, s[1..]), c);
      ClassOfCons(le, s[0], s[1..], c);
      assert s == [s[0]] + s[1..];
      // `x` and `s[0]` are not equivalent, so they cannot share a class.
      var head := s[0];
      assert le(x, c) && le(c, head) ==> le(x, head);
      assert !(Equiv(le, x, c) && Equiv(le, head, c));
    }
  }

  lemma {:induction false} ClassOfMembers<T>(le: (T, T) -> bool, s: seq<T>, x: T, y: T)
    ensures y in ClassOf(le, s, x) <==> y in s && Equiv(le, y, x)
  {
    if |s| > 0 {
      ClassOfMembers(le, s[1..], x, y);
      assert s == [s[0]] + s[1..];
    }
  }

  lemma SameClassesSameEmptiness<T(!new)>(le: (T, T) -> bool, a: seq<T>, b: seq<T>)
    requires TotalPreorder(le)
    requires SameClasses(le, a, b)
    ensures |a| == 0 <==> |b| == 0
  {
    if |a| > 0 {
      ClassOfMembers(le, a, a[0], a[0]);
      ClassOfMembers(le, b, a[0], a[0]);
    }
    if |b| > 0 {
      ClassOfMembers(le, b, b[0], b[0]);
      ClassOfMembers(le, a, b[0], b[0]);
    }
  }

  /** A sorted sequence with the classes of `s` in the order of `s` is
      unique: the sort specification determines its result. */
  lemma {:induction false} SortedWithSameClassesUnique<T(!new)>(le: (T, T) -> bool, a: seq<T>, b: seq<T>)
    requires TotalPreorder(le)
    requires Sorted(le, a) && Sorted(le, b)
    requires SameClasses(le, a, b)
    ensures a == b
  {
    if |a| == 0 || |b| == 0 {
      SameClassesSameEmptiness(le, a, b);
    } else {
      // Both heads are least elements of the same collection, hence equivalent.
      ClassOfMembers(le, b, b[0], b[0]);
      ClassOfMembers(le, a, b[0], b[0]);
      var j :| 0 <= j < |a| && a[j] == b[0];
      assert le(a[0], b[0]) by { if j > 0 { assert le(a[0], a[j]); } }
      ClassOfMembers(le, a, a[0], a[0]);
      ClassOfMembers(le, b, a[0], a[0]);
      var k :| 0 <= k < |b| && b[k] == a[0];
      assert le(b[0], a[0]) by { if k > 0 { assert le(b[0], b[k]); } }
      assert a == [a[0]] + a[1..] && b == [b[0]] + b[1..];
      ClassOfCons(le, a[0], a[1..], a[0]);
      ClassOfCons(le, b[0], b[1..], a[0]);
      assert a[0] == ClassOf(le, a, a[0])[0] == ClassOf(le, b, a[0])[0] == b[0];
      forall x ensures ClassOf(le, a[1..], x) == ClassOf(le, b[1..], x) {
        ClassOfCons(le, a[0], a[1..], x);
        ClassOfCons(le, b[0], b[1..], x);
        var h := if Equiv(le, a[0], x) then [a[0]] else [];
        assert h + ClassOf(le, a[1..], x) == h + ClassOf(le, b[1..], x);
        assert ClassOf(le, a[1..], x) == (h + ClassOf(le, a[1..], x))[|h|..];
        assert ClassOf(le, b[1..], x) == (h + ClassOf(le, b[1..], x))[|h|..];
      }
      SortedWithSameClassesUnique(le, a[1..], b[1..]);
    }
  }

  /** Any sorted sequence with the classes of `s` in input order is `Sort(le, s)`. */
  lemma SortIsTheStableSort<T(!new)>(le: (T, T) -> bool, s: seq<T>, t: seq<T>)
    requires TotalPreorder(le)
    requires Sorted(le, t) && SameClasses(le, s, t)
    ensures t == Sort(le, s)
  {
    var r := Sort(le, s);
    SortedWithSameClassesUnique(le, r, t);
  }

  /** Sorting is idempotent. */
  lemma SortIdempotent<T(!new)>(le: (T, T) -> bool, s: seq<T>)
    requires TotalPreorder(le)
    ensures Sort(le, Sort(le, s)) == Sort(le, s)
  {
    var r := Sort(le, s);
    SortIsTheStableSort(le, r, r);
  }

  /** A sequence whose elements are all equivalent is left exactly as it is. */
  lemma SortOfEquivalentsIsIdentity<T(!new)>(le: (T, T) -> bool, s: seq<T>)
    requires TotalPreorder(le)
    requires forall i, j :: 0 <= i < |s| && 0 <= j < |s| ==> Equiv(le, s[i], s[j])
    ensures Sort(le, s) == s
  {
    SortIsTheStableSort(le, s, s);
  }
}

=== FILE: polyline.dfy ===
/** The inner loop of `main` that turns one sorted group into an Esri
    polyline. It keeps the end point of the previous segment (`null` before
    the first point) and adds one segment per point: the first point gives a
    zero-length segment from itself to itself, every later point a segment
    from the previous end to itself. So n points give n segments. */
module Polylines {

  import opened Wrappers
  import opened Shapes

  /** Each segment starts where the one before it ends. */
  predicate Connected(segs: seq<Segment>)
  {
    forall i :: 0 < i < |segs| ==> segs[i].start == segs[i - 1].end
  }

  /** The loop from the state in which the previous segment ended at
      `lastEnd` (`None` while `endPoint` is still `null`). */
  function Trace(pts: seq<ShapePoint>, lastEnd: Option<Point>): (segs: seq<Segment>)
    ensures |segs| == |pts|
    ensures forall i :: 0 <= i < |segs| ==> segs[i].end == PointOf(pts[i])
    ensures |segs| > 0 ==> segs[0].start == (if lastEnd.Some? then lastEnd.value else PointOf(pts[0]))
    ensures Connected(segs)
  {
    if |pts| == 0 then []
    else
      var start := if lastEnd.Some? then lastEnd.value else PointOf(pts[0]);
      var end := PointOf(pts[0]);
      [Segment(start, end)] + Trace(pts[1..], Some(end))
  }

  /** The polyline of one group: segment 0 is the zero-length segment at
      point 0, and segment i (i >= 1) runs from point i-1 to point i. */
  function BuildPolyline(pts: seq<ShapePoint>): (segs: seq<Segment>)
    ensures |segs| == |pts|
    ensures |pts| > 0 ==> segs[0] == Segment(PointOf(pts[0]), PointOf(pts[0]))
    ensures forall i :: 0 < i < |segs| ==> segs[i] == Segment(PointOf(pts[i - 1]), PointOf(pts[i]))
  {
    Trace(pts, None)
  }

  /** The polyline has no gaps. */
  lemma PolylineConnected(pts: seq<ShapePoint>)
    ensures Connected(BuildPolyline(pts))
    ensures |pts| > 0 ==> BuildPolyline(pts)[|pts| - 1].end == PointOf(pts[|pts| - 1])
  {
  }

  /** Dropping the leading zero-length segment leaves the n-1 segments
      joining consecutive points. */
  lemma PolylineAfterFirstSegment(pts: seq<ShapePoint>)
    requires |pts| > 0
    ensures |BuildPolyline(pts)[1..]| == |pts| - 1
    ensures forall i :: 0 <= i < |pts| - 1 ==>
      BuildPolyline(pts)[1..][i] == Segment(PointOf(pts[i]), PointOf(pts[i + 1]))
  {
    var segs := BuildPolyline(pts);
    forall i | 0 <= i < |pts| - 1
      ensures segs[1..][i] == Segment(PointOf(pts[i]), PointOf(pts[i + 1]))
    {
      assert segs[1..][i] == segs[i + 1];
    }
  }
}

=== FILE: roads.dfy ===
/** The outer loop of `main`: one Barefoot `BaseRoad` per key of the
    grouping map, built from the key's sorted group, numbered by a counter. */
module Roads {

  import opened Shapes
  import Ordering
  import Polylines

  /** The fixed arguments of every `BaseRoad`: type `(short) 1`, and the
      float priority, forward and backward speeds and length 1, 60, 60, 100.
      The floats are exactly representable and never computed with. */
  const ROAD_TYPE: int := 1
  const PRIORITY: real := 1.0
  const MAX_SPEED_FORWARD: real := 60.0
  const MAX_SPEED_BACKWARD: real := 60.0
  const LENGTH: real := 100.0

  /** A Barefoot road, with its constructor's arguments in order. */
  datatype BaseRoad = BaseRoad(
    id: int,
    source: int,
    target: int,
    refid: int,
    oneway: bool,
    roadType: int,
    priority: real,
    maxSpeedForward: real,
    maxSpeedBackward: real,
    length: real,
    geometry: seq<Segment>)

  /** The attributes every road gets regardless of its key. */
  predicate FixedAttributes(r: BaseRoad)
  {
    && r.oneway
    && r.roadType == ROAD_TYPE
    && r.priority == PRIORITY
    && r.maxSpeedForward == MAX_SPEED_FORWARD
    && r.maxSpeedBackward == MAX_SPEED_BACKWARD
    && r.length == LENGTH
  }

  /** `new BaseRoad(new Long(key), segmentCounter, segmentCounter++, new Long(key), true, ...)`:
      Java evaluates arguments left to right, so both node fields receive the
      counter's value before the increment. */
  function MakeRoad(key: Int32, counter: int, sortedGroup: seq<ShapePoint>): (r: BaseRoad)
    ensures r.id == r.refid == key
    ensures r.source == r.target == counter
    ensures FixedAttributes(r)
    ensures |r.geometry| == |sortedGroup|
    ensures forall i :: 0 <= i < |sortedGroup| ==> r.geometry[i].end == PointOf(sortedGroup[i])
    ensures Polylines.Connected(r.geometry)
    ensures |sortedGroup| > 0 ==>
      && r.geometry[0].start == PointOf(sortedGroup[0])
      && r.geometry[|sortedGroup| - 1].end == PointOf(sortedGroup[|sortedGroup| - 1])
  {
    Polylines.PolylineConnected(sortedGroup);
    BaseRoad(key, counter, counter, key, true, ROAD_TYPE, PRIORITY,
             MAX_SPEED_FORWARD, MAX_SPEED_BACKWARD, LENGTH,
             Polylines.BuildPolyline(sortedGroup))
  }

  /** The key loop from counter value `counter` on: sort the key's group by
      `le`, build its polyline, make the road, increment the counter. */
  function BuildRoads(keys: seq<Int32>, byId: map<Int32, seq<ShapePoint>>,
                      le: (ShapePoint, ShapePoint) -> bool, counter: int): (roads: seq<BaseRoad>)
    requires Ordering.TotalPreorder(le)
    requires forall k :: k in keys ==> k in byId
    ensures |roads| == |keys|
    ensures forall i :: 0 <= i < |roads| ==>
      && roads[i].id == roads[i].refid == keys[i]
      && roads[i].source == roads[i].target == counter + i
      && FixedAttributes(roads[i])
      && roads[i].geometry == Polylines.BuildPolyline(Ordering.Sort(le, byId[keys[i]]))
      && |roads[i].geometry| == |byId[keys[i]]|
  {
    if |keys| == 0 then []
    else
      var first := MakeRoad(keys[0], counter, Ordering.Sort(le, byId[keys[0]]));
      var rest := BuildRoads(keys[1..], byId, le, counter + 1);
      assert forall i :: 0 < i <= |rest| ==> ([first] + rest)[i] == rest[i - 1];
      [first] + rest
  }
}

=== FILE: shapes.dfy ===
/** The value objects the map creator works with: GTFS shape points as the
    feed library hands them over, and the Esri points and line segments the
    polyline is made of. Coordinates are Java doubles that are only ever
    copied, never computed with, so they are kept as opaque reals. */
module Shapes {

  import opened Wrappers

  /** Range of a Java `int`: `ShapePoint.getId()` is a generated `Integer`. */
  const INT_MIN: int := -0x8000_0000
  const INT_MAX: int := 0x7FFF_FFFF

  type Int32 = x: int | INT_MIN <= x <= INT_MAX

  /** A latitude or longitude as read from the feed. */
  type Degrees = real

  /** A GTFS shape point. `id` is the per-entity id the relational store
      generates (`setGenerateIds(true)`); it is NOT the shape id, although
      the map creator groups by it. */
  datatype ShapePoint = ShapePoint(
    id: Int32,
    shapeId: string,
    sequence: int,
    lat: Degrees,
    lon: Degrees)

  /** An Esri point after `setXY(lon, lat)`. */
  datatype Point = Point(x: Degrees, y: Degrees)

  /** An Esri line: one segment of a polyline. */
  datatype Segment = Segment(start: Point, end: Point)

  /** The point `setXY(shape.getLon(), shape.getLat())` produces. */
  function PointOf(p: ShapePoint): Point
  {
    Point(p.lon, p.lat)
  }
}

=== FILE: wrappers.dfy ===
/** The one optional-value type of the model: Java's nullable references
    (`endPoint == null`, a `CommandLine` that may be `null`) become `Option`. */
module Wrappers {

  datatype Option<+T> = None | Some(value: T)
}
